=== FILE: README.md ===
# TikTokScanner profile scan, modelled in Dafny

The program scans a TikTok profile for video links, then downloads them.
It drives a browser to the profile and waits out verification challenges.
It scrolls until the page stops growing and collects every link that
contains `/video/`. The collected links then go to a download phase.

This project models the deterministic logic of `src/main.py` and proves
properties about it. The browser is abstracted as a finite list of
observations.

- `text.dfy` has two modules. `Options` holds the `Option` datatype.
  `Text` holds the Python `str` operations the program uses: `isspace`,
  `strip`, `split`, `upper`, `in` and `startswith`. It also has `Join`,
  which the program does not call; it is there for the split/join round
  trips the cookie lemmas use.
- `cookies.dfy` (`Cookies`) is `parse_netscape_cookies`, taken over the
  lines of the cookie file. `float()` is a parameter
  `num: string -> Option<real>`, and `None` means that `float()` raised.
- `challenge.dfy` (`Challenge`) has the two challenge checks of
  `TikTokScanner.scan`. The entry check runs after navigation and the
  scroll-time check runs after a stagnant height reading. Each locator
  query is `Hit`, `Miss` or `Raises`. An exception from one of the main-frame
  queries escapes the check. The frame loop asks two text queries of each
  frame of `page.frames`, the main frame included, and swallows their
  exceptions.
- `scanner.dfy` (`Scanner`) is the scan as a state machine. `Step` consumes
  one observation and `Run` consumes a finite list of them. The kinds of
  observation are: the page after navigation, one batch of hrefs, one
  height reading, one scroll-time re-check, the human acknowledgement, and
  an exception. The phases are `Navigating`, `ChallengeWait`, `Baseline`,
  `Scanning`, `Measuring`, `Stagnant`, `Confirming`, `Done` and `Failed`.
- `profile.dfy` (`Profile`) covers the URL handling in `main` and
  `download_videos`. It has profile-URL normalisation, relative-link
  fixing, the handle used as the output folder name, and the username/id
  split of a video URL.
- `video_log.dfy` (`VideoLog`) has the title shortened for display and the
  success/error counters of `VideoLogger`, driven by the download loop.

For heights 100, 250, 250 and 250 the code takes the first reading
before the loop (line 111). So it extracts links twice, and the
confirming 250 ends the loop. `Scanner.StagnationExample` states this
run.

The username shown for a download is `parts[3]` of the URL. For
`https://www.tiktok.com/@u/video/id` that is `@u`, with its `@`.
`start_video` then prints it after another `@`.
`Profile.LabelOfVideoUrl` states what the code computes.

## Model

| member | source | states |
|---|---|---|
| Cookies.ParseNetscapeCookies | src/main.py:14-37 | if one qualifying line has an expiry that does not parse, the result is empty, including cookies read before that line; otherwise there is one cookie per qualifying line, in input order, built from its fields by position |
| Cookies.ReadLine | src/main.py:19-33 | a line is ignored iff it is a comment, blank, or has fewer than seven fields after strip; it raises iff it qualifies and its expiry does not parse; otherwise its cookie takes the fields by position |
| Cookies.ReadLines | src/main.py:19-33 | the reading loop raises exactly when some qualifying line has a non-empty expiry that does not parse; otherwise it builds the cookies of the qualifying lines |
| Cookies.QualifyingComplete | src/main.py:20-24 | every line that is not a comment, not blank after strip, and has at least 7 tab fields after strip, is among the lines that yield cookies |
| Cookies.SecureFlag | src/main.py:28 | `secure` is set exactly when the fourth field is "true" in some mix of upper and lower case |
| Cookies.DomainNonEmpty | src/main.py:23-26 | a cookie's domain is never empty, because `strip()` removes a leading tab before the split |
| Cookies.ValueNonEmpty | src/main.py:23-31 | on a line with exactly seven fields the value is never empty |
| Cookies.TrailingSpaceLosesField | src/main.py:23-24 | a line that ends in whitespace has at most one more field than its body without the last character has tabs |
| Cookies.EmptyValueDropped | src/main.py:20-33 | seven tab-joined fields with an empty value do not yield a cookie: the trailing tab is stripped and only six fields remain |
| Challenge.FramesMatch | src/main.py:91-100 | the frame loop finds a challenge iff some frame matches; order does not matter |
| Challenge.EntryCheck | src/main.py:78-100 | a verification URL is detected without querying the page; it fails iff the URL is unmarked and the first main-frame query that does not miss raises, so a hit hides a later query that would raise; the check is clear iff the URL is unmarked, all three main-frame queries miss and no frame matches |
| Challenge.ScrollCheck | src/main.py:136-149 | fails iff the slider query raises, or it misses and the verify query raises; clear iff both texts miss and no frame matches; never reports the URL or the container |
| Challenge.ScrollIgnoresUrlAndContainer | src/main.py:136-149 | the scroll-time verdict does not change with the URL or the captcha-container query |
| Challenge.ScrollDetectionImpliesEntryDetection | src/main.py:79-149 | a challenge found by the scroll-time check is also found by the entry check; only a challenge seen by the frame loop alone can be hidden, by the container query raising first |
| Challenge.EntryCatchesWhatScrollMisses | src/main.py:79-80 | a captcha URL is detected at entry and missed by the scroll-time check |
| Challenge.FrameErrorIsNoMatch | src/main.py:91-149 | a frame whose first query raises is no match, even if its second query would hit, and it never makes a check fail |
| Scanner.Collect | src/main.py:119-122 | after a batch, a string is collected iff it was collected before, or it is a video href in the batch before the first href that raises; the batch completes iff no href raises |
| Scanner.Step | src/main.py:66-171 | arrival goes to the gate's outcome for any URL (fail on a raising query, wait on a challenge, otherwise measure the baseline); the acknowledgement leads to the baseline reading; at the top of the loop a batch adds exactly the video hrefs before the first unreadable one and goes on to measuring iff every href was read, failing otherwise; the baseline reading becomes `lastHeight`; a grown height goes back to the top with it as `lastHeight`, an equal one to the re-check; the re-check fails, waits or confirms as the scroll-time check says; an ended scan stays as it is; an exception fails the scan and keeps everything else; links only grow; only arriving on a login URL sets the warning |
| Scanner.Run | src/main.py:112-171 | over any finite run links are never lost, and an ended scan stays as it is |
| Scanner.StepLinks | src/main.py:115-122 | a step never loses a link, and it adds only video hrefs of the batch it queries (the post items, or the anchors when there are none), read before the first href that raises |
| Scanner.LinksChangeOnlyWhenScanning | src/main.py:115-117 | links change only when a batch is read at the top of the loop |
| Scanner.AnchorsIgnored | src/main.py:115-117 | when the post-item query finds anchors, the generic anchors make no difference to the step, even one whose href would raise |
| Scanner.RaisedKeepsLinks | src/main.py:166-171 | an exception ends the scan and keeps exactly the links gathered so far |
| Scanner.LoginOnlyWarns | src/main.py:73-102 | a login redirect sets the warning, and the scan fails at that point only if a main-frame query raises |
| Scanner.ExtractionPrecedesMeasurement | src/main.py:113-133 | the height comparison phase is entered only by reading a complete batch of links |
| Scanner.DoneOnlyByConfirmation | src/main.py:156-161 | the loop ends normally only on a confirmation reading equal to `lastHeight` |
| Scanner.ConfirmationIsOneReading | src/main.py:156-162 | the confirmation takes exactly one reading: the loop either ends, or goes back to the top with that reading as `lastHeight` |
| Scanner.TerminalIsFinal | src/main.py:161-171 | once the scan has ended, no further observation changes it |
| Scanner.RunLinks | src/main.py:112-162 | over any finite run the links only grow, all of them are video hrefs, and each new one was read from the batch of some `Links` observation: its post items, or its anchors when there are none, before the first href that raises |
| Scanner.ScanReturnsOfferedVideoLinks | src/main.py:111-171 | a scan from the start returns only video hrefs that the program read from the page's batches, however it ends |
| Scanner.RaisedAfterRun | src/main.py:166-171 | an exception after any run ends the scan with the links of that run |
| Scanner.StagnationEndsLoop | src/main.py:134-161 | a reading equal to `lastHeight`, a clear re-check and an equal confirmation reading end the loop with nothing else changed |
| Scanner.LateGrowthResumes | src/main.py:156-162 | a confirmation reading that differs resumes scanning with it as `lastHeight` |
| Scanner.ChallengeAfterStagnationResumes | src/main.py:151-162 | a challenge after a stagnant reading never ends the loop; after the acknowledgement the re-read height becomes `lastHeight`, even when unchanged |
| Scanner.StagnationExample | src/main.py:111-162 | heights 100, 250, 250 and 250 with no challenge: two extraction passes, then the loop stops with the links of both |
| Profile.NormalizeProfileUrl | src/main.py:412-417 | the result always starts with "http"; input that starts with "http" is unchanged; "@x" and "x" both become https://www.tiktok.com/@x |
| Profile.NormalizeIdempotent | src/main.py:412-417 | normalising twice is normalising once |
| Profile.AtAndBareAgree | src/main.py:413-417 | "@x" and "x" give the same profile URL when x does not start with "http" or "@" |
| Profile.HttpHandleNotNormalized | src/main.py:413 | the bare handle "httpcat" is kept as is, while "@httpcat" is normalised |
| Profile.FixedNormalizesEveryHandle | src/main.py:412-417 | with a scheme test, every handle, bare or with "@", becomes its profile URL, and normalising stays idempotent |
| Profile.NormalizeProfileUrlFixed | src/main.py:412-417 | corrected normalisation: the result always has a scheme; input with a scheme is unchanged; "@x" and "x" both become https://www.tiktok.com/@x |
| Profile.FindHandle | src/main.py:437 | a match is the whole run of `[a-zA-Z0-9_.-]` characters after the leftmost "@" that is followed by one; there is no match iff no "@" is followed by a handle character |
| Profile.Username | src/main.py:436-439 | the folder name is the captured handle when there is a match, and "unknown_user" otherwise |
| Profile.FindHandleAfter | src/main.py:437-439 | the handle after the first "@" is captured whole, up to the first non-handle character |
| Profile.UsernameOfNormalizedAsWritten | src/main.py:412-439 | as written, the folder is named after the handle the profile URL was built from, bare or with "@", when the handle does not start with "http" |
| Profile.UsernameOfNormalized | src/main.py:412-439 | with the corrected normalisation, the folder is named after the handle for every handle |
| Profile.FixLink | src/main.py:428-431 | a fixed link always starts with "http"; a link that already does is unchanged, any other is taken as a path on the site |
| Profile.FixLinkKeepsVideo | src/main.py:427-431 | fixing a link is idempotent and keeps a video link a video link |
| Profile.FixLinks | src/main.py:426-431 | every link is fixed, in order, none dropped |
| Profile.LabelOf | src/main.py:352-359 | with fewer than three "/" both labels stay "unknown"; with fewer than five the id stays "unknown"; a label that is set never contains "/" |
| Profile.LabelOfFields | src/main.py:352-359 | a URL made of "/"-free fields is labelled with its fourth and sixth fields, each "unknown" when there are too few; the username is set even when the id is missing |
| Profile.LabelOfVideoUrl | src/main.py:351-357 | for a site video URL the username is the handle with its "@" and the id is the last segment |
| Profile.LabelOfProfileUrl | src/main.py:352-359 | with `parts[3]` present and `parts[5]` absent, the username is set and the id stays "unknown" |
| Profile.LabelOfFixedLink | src/main.py:427-431 | a relative video link, once fixed, is labelled with its handle and id |
| VideoLog.DisplayTitle | src/main.py:248 | a title of at most 50 characters is shown as is; a longer one as its first 50 characters followed by "..." |
| VideoLog.DisplayTitleStable | src/main.py:248 | a shown title has at most 53 characters, starts with as much of the title as fits, and showing it again changes nothing |
| VideoLog.NewLogger | src/main.py:228-233 | a new logger knows the number of videos and has both counters at zero |
| VideoLog.StartVideo | src/main.py:235-243 | starting a video records its index, marks its display block as started, and leaves the counters and the total unchanged |
| VideoLog.FinishVideo | src/main.py:258-264 | exactly one counter moves; the success counter moves iff the status is "success"; the total, index and block flag are unchanged |
| VideoLog.DownloadVideos | src/main.py:317-385 | no logger for an empty list; otherwise every URL is counted once, successes are the URLs whose `try` body returned without an exception, and errors are the rest |

## Findings

| source | as written | input that shows it | evidently intended | confidence | as-written member | corrected member |
|---|---|---|---|---|---|---|
| src/main.py:413 | `startswith("http")` decides whether the argument is already a URL | the bare handle `httpcat` stays "httpcat" and is used as the URL, while `@httpcat` becomes https://www.tiktok.com/@httpcat | test for a URL scheme (`http://` or `https://`), so every handle is normalised | medium, not executed | Profile.HttpHandleNotNormalized | Profile.FixedNormalizesEveryHandle |

`Profile.NormalizeProfileUrl` models the code as written.
`Profile.NormalizeProfileUrlFixed` is the corrected definition, and
`Profile.UsernameOfNormalized` is stated about it. As written, the folder
name still matches the handle for every handle that does not start with
"http" (`Profile.UsernameOfNormalizedAsWritten`).

## Left out

- Browser setup (src/main.py:50-64) is left out: launch, context, user agent, cookie injection, new page, stealth. It is a foreign library. It also runs outside the `try`, so exceptions there leave `scan` and are not modelled.
- `goto`, the network-idle wait and every `wait_for_timeout` are left out. They are timing. Their exceptions are the `Raised` observation.
- The blocking `input()` is the `Ack` observation. An exception from it is `Raised`. `KeyboardInterrupt` is not an `Exception` in Python and is not modelled.
- `browser.close()` in the `finally` is left out, because it is resource teardown.
- Opening the cookie file and cutting it into lines is left out: it is I/O. The model takes the lines as given.
- `float()` is the parameter `num`. The model keeps only the distinction between empty, parsed and unparseable expiry, not the float's value.
- `Text.Upper` maps only ASCII letters. This decides the "TRUE" comparison exactly as Python's `upper()` does, because no other character upper-cases to letters of "TRUE".
- `list(self.video_urls)` has the set's iteration order, which the program does not fix. The model returns the set, and `Profile.FixLinks` accepts the links in any order.
- An observation that the program does not read in the current phase leaves the scan state unchanged. The real browser never produces one there.
- The loop has no iteration cap. The model runs only finite observation lists, so it says nothing about a page that keeps growing forever.
- yt-dlp is left out: `extract_info`, `download`, the option dictionary, the filename template, and `progress_hook` / `post_processor_hook`. It is a foreign library. Whether the `try` body for a URL returns without an exception is the parameter `completes`. With `'ignoreerrors': True` (line 333) yt-dlp may report a failed download without raising; such a URL still counts as a success, as in the code.
- `VideoLog.DownloadVideos`: it does not model the per-video labels or the metadata lines it prints, because they are display only.
- The file-size text is left out because it uses floating point.
- The plain `print` calls are left out: the cookie error (line 35), the scan start (line 48), the scan error (line 167), and lines 321 and 324 in `download_videos`. They are output only.
- `ConsoleManager`, the printing methods of `VideoLogger`, `print_summary` and both `MyLogger` classes are left out. They are output only.
- argparse, the `DISPLAY`/platform headless switch, `os.makedirs`, the cookie-path existence test and the dry-run printing in `main` are left out. They are environment and I/O.

=== FILE: challenge.dfy ===
/** Verification-challenge detection in `TikTokScanner.scan`, over an
    abstract picture of the page: its URL, the result of each locator query
    in the main frame, and the results of the two text queries in each
    frame of `page.frames`, the main frame included. */
module Challenge {
  import opened Text

  /** Result of one `locator(...).count() > 0` query. */
  datatype Probe = Hit | Miss | Raises

  /** One entry of `page.frames` (the main frame is one of them): the
      "Drag the slider" query, then the "Verify to continue" query (asked
      only when the first one reports no match). */
  datatype Frame = Frame(slider: Probe, verify: Probe)

  /** The page as a check sees it. `slider`, `verify` and `container` are
      the main-frame queries for "Drag the slider", "Verify to continue"
      and `.captcha-container`. */
  datatype Page = Page(url: string, slider: Probe, verify: Probe, container: Probe, frames: seq<Frame>)

  /** Which check fired. */
  datatype Signal = UrlMarker | SliderText | VerifyText | CaptchaContainer | FrameText

  /** A check either finds a challenge, finds none, or is cut short by a
      main-frame query that raised (that exception is not caught by the
      check and ends the scan). */
  datatype Verdict = Detected(signal: Signal) | Clear | QueryRaised

  /** The URL carries one of the verification markers. */
  predicate UrlMarked(url: string) {
    Contains(url, "verify") || Contains(url, "captcha")
  }

  /** One frame of `page.frames` inside its `try`: the slider query first; a raised
      query is swallowed and the frame counts as no match. */
  predicate FrameMatches(f: Frame) {
    f.slider == Hit || (f.slider == Miss && f.verify == Hit)
  }

  /** The loop over `page.frames`, stopping at the first match. */
  function FramesMatch(frames: seq<Frame>): (r: bool)
    ensures r <==> exists i | 0 <= i < |frames| :: FrameMatches(frames[i])
  {
    if |frames| == 0 then false
    else if FrameMatches(frames[0]) then true
    else
      var rest := FramesMatch(frames[1..]);
      assert forall i | 1 <= i < |frames| :: frames[i] == frames[1..][i - 1];
      rest
  }

  /** The check run once after navigation: the URL first, then the main
      frame's two texts and the captcha container, then every frame of `page.frames`;
      the first that fires decides. */
  function EntryCheck(p: Page): (r: Verdict)
    ensures UrlMarked(p.url) ==> r == Detected(UrlMarker)
    ensures r == QueryRaised <==>
      && !UrlMarked(p.url)
      && (p.slider == Raises || (p.slider == Miss && (p.verify == Raises || (p.verify == Miss && p.container == Raises))))
    ensures r == Clear <==>
      && !UrlMarked(p.url)
      && p.slider == Miss && p.verify == Miss && p.container == Miss
      && !FramesMatch(p.frames)
    ensures r == Detected(FrameText) ==>
      p.slider == Miss && p.verify == Miss && p.container == Miss && FramesMatch(p.frames)
  {
    if UrlMarked(p.url) then Detected(UrlMarker)
    else match p.slider
      case Raises => QueryRaised
      case Hit => Detected(SliderText)
      case Miss =>
        match p.verify
        case Raises => QueryRaised
        case Hit => Detected(VerifyText)
        case Miss =>
          match p.container
          case Raises => QueryRaised
          case Hit => Detected(CaptchaContainer)
          case Miss => if FramesMatch(p.frames) then Detected(FrameText) else Clear
  }

  /** The check run after a stagnant height reading: the two main-frame
      texts (short-circuit `or`), then every frame of `page.frames`. It never looks at
      the URL or the captcha container. */
  function ScrollCheck(p: Page): (r: Verdict)
    ensures r == QueryRaised <==> p.slider == Raises || (p.slider == Miss && p.verify == Raises)
    ensures r == Clear <==> p.slider == Miss && p.verify == Miss && !FramesMatch(p.frames)
    ensures r.Detected? ==> r.signal in {SliderText, VerifyText, FrameText}
  {
    match p.slider
    case Raises => QueryRaised
    case Hit => Detected(SliderText)
    case Miss =>
      match p.verify
      case Raises => QueryRaised
      case Hit => Detected(VerifyText)
      case Miss => if FramesMatch(p.frames) then Detected(FrameText) else Clear
  }

  /** The scroll-time check depends neither on the URL nor on the captcha
      container. */
  lemma ScrollIgnoresUrlAndContainer(p: Page, url: string, container: Probe)
    ensures ScrollCheck(p.(url := url, container := container)) == ScrollCheck(p)
  {
  }

  /** Whatever the scroll-time check finds, the entry check finds too.
      The one exception is a challenge seen only by the frame loop: the entry
      check asks the captcha-container query first, and that query may
      raise. */
  lemma ScrollDetectionImpliesEntryDetection(p: Page)
    requires ScrollCheck(p).Detected?
    requires ScrollCheck(p).signal == FrameText ==> p.container != Raises
    ensures EntryCheck(p).Detected?
  {
  }

  /** The converse fails: a verification URL alone is caught at entry and
      missed after scrolling. */
  lemma EntryCatchesWhatScrollMisses()
    ensures var p := Page("https://www.tiktok.com/captcha", Miss, Miss, Miss, []);
      EntryCheck(p) == Detected(UrlMarker) && ScrollCheck(p) == Clear
  {
    var url := "https://www.tiktok.com/captcha";
    assert url[23..30] == "captcha";
    assert InfixAt(url, "captcha", 23);
  }

  /** A frame whose first query raises is no match even if its second
      query would have found the text; errors in the frame loop never end
      a check with `QueryRaised`. */
  lemma FrameErrorIsNoMatch(p: Page, verify: Probe)
    ensures !FrameMatches(Frame(Raises, verify))
    ensures ScrollCheck(p.(frames := p.frames + [Frame(Raises, verify)])) == ScrollCheck(p)
    ensures EntryCheck(p.(frames := p.frames + [Frame(Raises, verify)])) == EntryCheck(p)
  {
    var fs := p.frames + [Frame(Raises, verify)];
    assert forall i | 0 <= i < |p.frames| :: fs[i] == p.frames[i];
    assert FramesMatch(fs) == FramesMatch(p.frames);
  }
}

=== FILE: cookies.dfy ===
/** The Netscape cookie-file reader of `src/main.py`, taken over the list of
    lines the file holds. The conversion of the expiry field to a float is a
    parameter `num`: `num(s) == None` stands for `float(s)` raising. */
module Cookies {
  import opened Options
  import opened Text

  /** `-1` in the source when the field is empty, the parsed float otherwise. */
  datatype Expiry = NoExpiry | Epoch(seconds: real)

  datatype Cookie = Cookie(
    domain: string,
    path: string,
    secure: bool,
    expires: Expiry,
    name: string,
    value: string)

  /** Comment lines and lines that are blank once stripped. */
  predicate Skipped(line: string) {
    StartsWith(line, "#") || Strip(line) == ""
  }

  /** The tab-separated fields of a line, read after `strip()`. */
  function Fields(line: string): (f: seq<string>)
    ensures |f| >= 1
  {
    Split(Strip(line), '\t')
  }

  /** A line that yields a cookie (unless its expiry fails to parse). */
  predicate Qualifies(line: string) {
    !Skipped(line) && |Fields(line)| >= 7
  }

  /** The expiry field: empty means no expiry, otherwise it must parse. */
  function ParseExpiry(field: string, num: string -> Option<real>): Option<Expiry> {
    if field == "" then Some(NoExpiry)
    else match num(field)
      case None => None
      case Some(t) => Some(Epoch(t))
  }

  /** A qualifying line whose expiry field does not parse. */
  predicate BadExpiry(line: string, num: string -> Option<real>) {
    Qualifies(line) && ParseExpiry(Fields(line)[4], num).None?
  }

  /** The qualifying lines, in input order. */
  function Qualifying(lines: seq<string>): (q: seq<string>)
    ensures |q| <= |lines|
    ensures forall k :: 0 <= k < |q| ==> q[k] in lines && Qualifies(q[k])
  {
    if |lines| == 0 then []
    else
      var last := lines[|lines| - 1];
      Qualifying(lines[..|lines| - 1]) + (if Qualifies(last) then [last] else [])
  }

  /** Every qualifying line is among the qualifying lines (the converse of
      the second postcondition of `Qualifying`). */
  lemma {:induction false} QualifyingComplete(lines: seq<string>, line: string)
    requires line in lines && Qualifies(line)
    ensures line in Qualifying(lines)
    decreases |lines|
  {
    var init := lines[..|lines| - 1];
    if line != lines[|lines| - 1] {
      assert lines == init + [lines[|lines| - 1]];
      QualifyingComplete(init, line);
    }
  }

  /** The cookie the source builds from the fields of one line: domain,
      path, name and value by position, the second field ignored. */
  predicate FromFields(c: Cookie, f: seq<string>, num: string -> Option<real>)
    requires |f| >= 7
  {
    && c.domain == f[0]
    && c.path == f[2]
    && c.secure == (Upper(f[3]) == "TRUE")
    && ParseExpiry(f[4], num) == Some(c.expires)
    && c.name == f[5]
    && c.value == f[6]
  }

  /** What the loop body of the source does with one line. */
  datatype LineOutcome = Ignored | Raises | Yields(cookie: Cookie)

  /** One iteration of the reading loop: skip comments and blank lines,
      strip and split on tabs, keep lines of seven or more fields. */
  function ReadLine(line: string, num: string -> Option<real>): (r: LineOutcome)
    ensures r.Ignored? <==> !Qualifies(line)
    ensures r.Raises? <==> BadExpiry(line, num)
    ensures r.Yields? ==> Qualifies(line) && FromFields(r.cookie, Fields(line), num)
  {
    if StartsWith(line, "#") || Strip(line) == "" then Ignored
    else
      var parts := Split(Strip(line), '\t');
      if |parts| < 7 then Ignored
      else match ParseExpiry(parts[4], num)
        case None => Raises
        case Some(e) => Yields(Cookie(parts[0], parts[2], Upper(parts[3]) == "TRUE", e, parts[5], parts[6]))
  }

  /** `cookies` are the cookies of the lines `q`, one per line, in order. */
  predicate BuiltFrom(cookies: seq<Cookie>, q: seq<string>, num: string -> Option<real>) {
    && |cookies| == |q|
    && forall k :: 0 <= k < |q| ==> Qualifies(q[k]) && FromFields(cookies[k], Fields(q[k]), num)
  }

  lemma BuiltFromSnoc(cookies: seq<Cookie>, q: seq<string>, c: Cookie, line: string, num: string -> Option<real>)
    requires BuiltFrom(cookies, q, num)
    requires Qualifies(line) && FromFields(c, Fields(line), num)
    ensures BuiltFrom(cookies + [c], q + [line], num)
  {
  }

  /** A bad expiry occurs in the lines iff it occurs before the last line
      or on it. */
  lemma BadExpiryAnywhere(lines: seq<string>, init: seq<string>, num: string -> Option<real>)
    requires |lines| > 0 && init == lines[..|lines| - 1]
    ensures (exists i | 0 <= i < |lines| :: BadExpiry(lines[i], num)) <==>
      (exists i | 0 <= i < |init| :: BadExpiry(init[i], num)) || BadExpiry(lines[|lines| - 1], num)
  {
    assert forall i | 0 <= i < |init| :: init[i] == lines[i];
  }

  /** The reading loop of `parse_netscape_cookies`: `None` when it raises
      (an expiry that does not parse), otherwise one cookie per qualifying
      line, in input order. */
  function ReadLines(lines: seq<string>, num: string -> Option<real>): (r: Option<seq<Cookie>>)
    ensures r.None? <==> exists i | 0 <= i < |lines| :: BadExpiry(lines[i], num)
    ensures r.Some? ==> BuiltFrom(r.value, Qualifying(lines), num)
  {
    if |lines| == 0 then Some([])
    else
      var init := lines[..|lines| - 1];
      var last := lines[|lines| - 1];
      BadExpiryAnywhere(lines, init, num);
      match ReadLines(init, num)
      case None => None
      case Some(cookies) =>
        match ReadLine(last, num)
        case Ignored => Some(cookies)
        case Raises => None
        case Yields(c) =>
          BuiltFromSnoc(cookies, Qualifying(init), c, last, num);
          Some(cookies + [c])
  }

  /** `parse_netscape_cookies` over the lines of the file: one cookie per
      qualifying line in input order, or nothing at all as soon as one
      qualifying line has an expiry that does not parse, whatever was read
      before it. */
  function ParseNetscapeCookies(lines: seq<string>, num: string -> Option<real>): (cookies: seq<Cookie>)
    ensures (exists i | 0 <= i < |lines| :: BadExpiry(lines[i], num)) ==> cookies == []
    ensures (forall i | 0 <= i < |lines| :: !BadExpiry(lines[i], num)) ==>
      BuiltFrom(cookies, Qualifying(lines), num)
  {
    ReadLines(lines, num).GetOr([])
  }

  /** The secure flag is set exactly by the sixteen spellings of "true"
      that differ only in letter case. */
  lemma SecureFlag(f: string)
    ensures Upper(f) == "TRUE" <==>
      |f| == 4 && forall k :: 0 <= k < 4 ==> f[k] == "TRUE"[k] || f[k] == "true"[k]
  {
    if |f| == 4 && forall k :: 0 <= k < 4 ==> f[k] == "TRUE"[k] || f[k] == "true"[k] {
      assert Upper(f) == "TRUE";
    }
  }

  /** A cookie's domain is never empty: `strip()` removes a leading tab. */
  lemma DomainNonEmpty(line: string)
    requires Qualifies(line)
    ensures Fields(line)[0] != ""
  {
    SplitFirstNonEmpty(Strip(line), '\t');
  }

  /** When the line has exactly seven fields the value is never empty:
      `strip()` removes a trailing tab. */
  lemma ValueNonEmpty(line: string)
    requires Qualifies(line) && |Fields(line)| == 7
    ensures Fields(line)[6] != ""
  {
    SplitLastNonEmpty(Strip(line), '\t');
  }

  /** A line that ends in whitespace loses a field to `strip()`: it has at
      most as many fields as its body without the last character has tabs,
      plus one. */
  lemma TrailingSpaceLosesField(line: string)
    requires |line| > 0 && IsSpace(line[|line| - 1])
    ensures |Fields(line)| <= Count(line[..|line| - 1], '\t') + 1
  {
    var t := TrimStart(line);
    var r := Strip(line);
    var a := |line| - |t|;
    SplitLength(r, '\t');
    if |r| > 0 {
      assert t[|t| - 1] == line[|line| - 1];
      assert |r| < |t|;
      assert r == line[..|line| - 1][a..a + |r|];
      CountInfix(line[..|line| - 1], a, a + |r|, '\t');
    }
  }

  /** Seven tab-joined fields whose value is empty do not make a cookie:
      the trailing tab is stripped and only six fields remain. */
  lemma EmptyValueDropped(fields: seq<string>)
    requires |fields| == 7 && fields[6] == ""
    requires forall k :: 0 <= k < 7 ==> '\t' !in fields[k]
    ensures !Qualifies(Join(fields, '\t'))
  {
    var line := Join(fields, '\t');
    var body := Join(fields[..6], '\t');
    JoinLastEmpty(fields, '\t');
    assert line == body + ['\t'];
    assert line[..|line| - 1] == body;
    SplitJoin(fields[..6], '\t');
    SplitLength(body, '\t');
    TrailingSpaceLosesField(line);
  }

  /** Joining fields whose last one is empty appends a separator to the
      join of the others. */
  lemma {:induction false} JoinLastEmpty(fields: seq<string>, sep: char)
    requires |fields| >= 2 && fields[|fields| - 1] == ""
    ensures Join(fields, sep) == Join(fields[..|fields| - 1], sep) + [sep]
    decreases |fields|
  {
    if |fields| > 2 {
      JoinLastEmpty(fields[1..], sep);
      assert fields[1..][..|fields| - 2] == fields[..|fields| - 1][1..];
    }
  }
}

=== FILE: profile.dfy ===
/** The string handling around the scan in `main` and `download_videos`:
    the profile URL built from the command-line argument, relative links
    made absolute, the handle that names the output folder, and the
    username / id shown for each download. */
module Profile {
  import opened Options
  import opened Text

  const site := "https://www.tiktok.com"

  // ---------------------------------------------------------------------
  // Profile URL

  /** The profile URL built from the argument, as written: anything that
      starts with "http" is taken as a URL; "@x" and "x" both become the
      profile URL of x. */
  function NormalizeProfileUrl(arg: string): (url: string)
    ensures StartsWith(url, "http")
    ensures StartsWith(arg, "http") ==> url == arg
    ensures !StartsWith(arg, "http") ==>
      url == site + "/@" + (if StartsWith(arg, "@") then arg[1..] else arg)
  {
    if StartsWith(arg, "http") then arg
    else if StartsWith(arg, "@") then site + "/" + arg
    else site + "/@" + arg
  }

  /** Normalising twice is normalising once. */
  lemma NormalizeIdempotent(arg: string)
    ensures NormalizeProfileUrl(NormalizeProfileUrl(arg)) == NormalizeProfileUrl(arg)
  {
  }

  /** "@x" and "x" name the same profile, as long as x does not itself
      start with "http" or "@". */
  lemma AtAndBareAgree(x: string)
    requires !StartsWith(x, "http") && !StartsWith(x, "@")
    ensures NormalizeProfileUrl("@" + x) == NormalizeProfileUrl(x) == site + "/@" + x
  {
    assert ("@" + x)[1..] == x;
    assert !StartsWith("@" + x, "http");
  }

  /** As written, a bare handle that starts with "http" is not normalised
      at all, while the same handle with "@" is. */
  lemma HttpHandleNotNormalized()
    ensures NormalizeProfileUrl("httpcat") == "httpcat"
    ensures NormalizeProfileUrl("@httpcat") == site + "/@httpcat"
  {
    DiffersAt("@httpcat", "http", 0);
  }

  /** A handle as the output-folder pattern `[a-zA-Z0-9_.-]` reads it. */
  predicate HandleChar(c: char) {
    'a' <= c <= 'z' || 'A' <= c <= 'Z' || '0' <= c <= '9' || c == '_' || c == '.' || c == '-'
  }

  predicate IsHandle(h: string) {
    |h| > 0 && forall i | 0 <= i < |h| :: HandleChar(h[i])
  }

  /** The argument already carries a URL scheme. */
  predicate HasScheme(arg: string) {
    StartsWith(arg, "http://") || StartsWith(arg, "https://")
  }

  /** The profile URL built from the argument, testing for a scheme rather
      than for the four letters "http". */
  function NormalizeProfileUrlFixed(arg: string): (url: string)
    ensures HasScheme(url)
    ensures HasScheme(arg) ==> url == arg
    ensures !HasScheme(arg) ==>
      url == site + "/@" + (if StartsWith(arg, "@") then arg[1..] else arg)
  {
    if HasScheme(arg) then arg
    else if StartsWith(arg, "@") then site + "/" + arg
    else site + "/@" + arg
  }

  /** With the scheme test every handle, bare or with "@", reaches its
      profile URL, and normalising is idempotent. */
  lemma FixedNormalizesEveryHandle(h: string)
    requires IsHandle(h)
    ensures NormalizeProfileUrlFixed(h) == site + "/@" + h
    ensures NormalizeProfileUrlFixed("@" + h) == site + "/@" + h
    ensures NormalizeProfileUrlFixed(NormalizeProfileUrlFixed(h)) == NormalizeProfileUrlFixed(h)
  {
    if |h| > 4 {
      assert HandleChar(h[4]);
    }
    if |h| > 5 {
      assert HandleChar(h[5]);
    }
    DiffersAt(h, "http://", 4);
    DiffersAt(h, "https://", 5);
    DiffersAt("@" + h, "http://", 0);
    DiffersAt("@" + h, "https://", 0);
    assert ("@" + h)[1..] == h;
    assert (site + "/@" + h)[..8] == "https://";
  }

  // ---------------------------------------------------------------------
  // Output folder name

  /** The longest prefix of handle characters. */
  function HandleRun(s: string): (r: string)
    ensures |r| <= |s| && r == s[..|r|]
    ensures forall i | 0 <= i < |r| :: HandleChar(r[i])
    ensures |r| < |s| ==> !HandleChar(s[|r|])
  {
    if |s| > 0 && HandleChar(s[0]) then [s[0]] + HandleRun(s[1..]) else []
  }

  /** An "@" at `i` followed by the whole run `h` of handle characters:
      the run ends at the end of `s` or before a non-handle character. */
  predicate HandleAt(s: string, i: int, h: string) {
    InfixAt(s, "@" + h, i) && (i + 1 + |h| == |s| || !HandleChar(s[i + 1 + |h|]))
  }

  /** No "@" before position `i` is followed by a handle character. */
  predicate NoHandleBefore(s: string, i: int) {
    forall j | 0 <= j < i && j + 1 < |s| :: !(s[j] == '@' && HandleChar(s[j + 1]))
  }

  /** `re.search(r'@([a-zA-Z0-9_.-]+)', url)`: the leftmost "@" followed by
      a handle character, and the whole run of handle characters after it,
      which the group captures. */
  function FindHandle(s: string): (r: Option<string>)
    ensures r.Some? ==> IsHandle(r.value) && exists i :: HandleAt(s, i, r.value) && NoHandleBefore(s, i)
    ensures r.None? <==> NoHandleBefore(s, |s|)
  {
    if |s| < 2 then None
    else if s[0] == '@' && HandleChar(s[1]) then
      var h := HandleRun(s[1..]);
      assert s[..|h| + 1] == "@" + h;
      assert HandleAt(s, 0, h);
      Some(h)
    else
      var r := FindHandle(s[1..]);
      if r.Some? then
        FindHandleShift(s, r.value);
        r
      else
        assert forall i | 1 <= i < |s| - 1 :: s[i] == s[1..][i - 1] && s[i + 1] == s[1..][i];
        r
  }

  /** A match in the tail is a match of the whole string when the first
      character does not start one. */
  lemma FindHandleShift(s: string, h: string)
    requires |s| >= 2 && !(s[0] == '@' && HandleChar(s[1]))
    requires exists i :: HandleAt(s[1..], i, h) && NoHandleBefore(s[1..], i)
    ensures exists i :: HandleAt(s, i, h) && NoHandleBefore(s, i)
  {
    var i :| HandleAt(s[1..], i, h) && NoHandleBefore(s[1..], i);
    assert s[i + 1..i + 1 + |"@" + h|] == s[1..][i..i + |"@" + h|];
    assert HandleAt(s, i + 1, h);
    forall j | 1 <= j < i + 1 && j + 1 < |s|
      ensures !(s[j] == '@' && HandleChar(s[j + 1]))
    {
      assert s[j] == s[1..][j - 1] && s[j + 1] == s[1..][j];
    }
  }

  /** The output folder name: the handle `re.search` captures, or
      "unknown_user" when there is no match. */
  function Username(profileUrl: string): (name: string)
    ensures name == "unknown_user" || IsHandle(name)
    ensures FindHandle(profileUrl).None? ==> name == "unknown_user"
    ensures FindHandle(profileUrl).Some? ==> name == FindHandle(profileUrl).value
  {
    FindHandle(profileUrl).GetOr("unknown_user")
  }

  /** The handle after the first "@" that precedes one is found whole. */
  lemma {:induction false} FindHandleAfter(p: string, h: string, t: string)
    requires '@' !in p && IsHandle(h)
    requires t == [] || !HandleChar(t[0])
    ensures FindHandle(p + "@" + h + t) == Some(h)
    decreases |p|
  {
    var s := p + "@" + h + t;
    if |p| == 0 {
      assert s == "@" + (h + t);
      assert s[1..] == h + t;
      HandleRunStops(h, t);
    } else {
      assert s[1..] == p[1..] + "@" + h + t;
      FindHandleAfter(p[1..], h, t);
    }
  }

  lemma {:induction false} HandleRunStops(h: string, t: string)
    requires forall i | 0 <= i < |h| :: HandleChar(h[i])
    requires t == [] || !HandleChar(t[0])
    ensures HandleRun(h + t) == h
    decreases |h|
  {
    if |h| > 0 {
      assert (h + t)[1..] == h[1..] + t;
      HandleRunStops(h[1..], t);
      assert [h[0]] + h[1..] == h;
    } else {
      assert h + t == t;
    }
  }

  /** As written, the folder is named after the handle the profile URL
      was built from, as long as the handle does not start with "http". */
  lemma UsernameOfNormalizedAsWritten(h: string)
    requires IsHandle(h) && !StartsWith(h, "http")
    ensures Username(NormalizeProfileUrl(h)) == h
    ensures Username(NormalizeProfileUrl("@" + h)) == h
  {
    assert HandleChar(h[0]);
    AtAndBareAgree(h);
    assert site + "/@" + h == (site + "/") + "@" + h + [];
    FindHandleAfter(site + "/", h, []);
  }

  /** With the corrected normalisation, the folder is named after the
      handle for every handle. */
  lemma UsernameOfNormalized(h: string)
    requires IsHandle(h)
    ensures Username(NormalizeProfileUrlFixed(h)) == h
    ensures Username(NormalizeProfileUrlFixed("@" + h)) == h
  {
    FixedNormalizesEveryHandle(h);
    assert site + "/@" + h == (site + "/") + "@" + h + [];
    FindHandleAfter(site + "/", h, []);
  }

  // ---------------------------------------------------------------------
  // Links found by the scan

  /** A link that does not start with "http" is a path on the site. */
  function FixLink(link: string): (url: string)
    ensures StartsWith(url, "http")
    ensures StartsWith(link, "http") ==> url == link
    ensures !StartsWith(link, "http") ==> url == site + link
  {
    if StartsWith(link, "http") then link else site + link
  }

  /** Fixing is idempotent and keeps a video link a video link. */
  lemma FixLinkKeepsVideo(link: string)
    ensures FixLink(FixLink(link)) == FixLink(link)
    ensures Contains(link, "/video/") ==> Contains(FixLink(link), "/video/")
  {
    if Contains(link, "/video/") && !StartsWith(link, "http") {
      ContainsAfterPrefix(site, link, "/video/");
    }
  }

  /** The whole list, in order. */
  function FixLinks(links: seq<string>): (urls: seq<string>)
    ensures |urls| == |links|
    ensures forall i | 0 <= i < |links| :: urls[i] == FixLink(links[i])
  {
    if |links| == 0 then [] else [FixLink(links[0])] + FixLinks(links[1..])
  }

  // ---------------------------------------------------------------------
  // Username and id shown for a download

  datatype VideoLabel = VideoLabel(username: string, id: string)

  /** `parts[3]` and `parts[5]` of the URL split on "/", each falling back
      to "unknown"; the first index error stops the assignments. With
      fewer than three "/" neither is set, with fewer than five the id is
      not set, and a field that is set never contains "/". */
  function LabelOf(url: string): (r: VideoLabel)
    ensures Count(url, '/') < 3 ==> r == VideoLabel("unknown", "unknown")
    ensures Count(url, '/') >= 3 ==> '/' !in r.username
    ensures Count(url, '/') < 5 ==> r.id == "unknown"
    ensures Count(url, '/') >= 5 ==> '/' !in r.id
  {
    var parts := Split(url, '/');
    SplitLength(url, '/');
    SplitFieldsFree(url, '/');
    if |parts| <= 3 then VideoLabel("unknown", "unknown")
    else if |parts| <= 5 then VideoLabel(parts[3], "unknown")
    else VideoLabel(parts[3], parts[5])
  }

  /** A URL made of "/"-free fields is labelled with its fourth and sixth
      fields, each "unknown" when the URL has too few. */
  lemma LabelOfFields(parts: seq<string>)
    requires |parts| >= 1 && forall k | 0 <= k < |parts| :: '/' !in parts[k]
    ensures LabelOf(Join(parts, '/')) ==
      VideoLabel(if |parts| > 3 then parts[3] else "unknown", if |parts| > 5 then parts[5] else "unknown")
  {
    SplitJoin(parts, '/');
  }

  /** The first three fields of any URL on the site. */
  lemma SplitSiteUrl(rest: string)
    ensures Split(site + "/" + rest, '/') == ["https:", "", "www.tiktok.com"] + Split(rest, '/')
  {
    var tail := "www.tiktok.com" + ['/'] + rest;
    var mid := "" + ['/'] + tail;
    assert site + "/" + rest == "https:" + ['/'] + mid;
    SplitAfterField("https:", mid, '/');
    SplitAfterField("", tail, '/');
    SplitAfterField("www.tiktok.com", rest, '/');
  }

  lemma NoSlashInHandle(u: string)
    requires '/' !in u
    ensures '/' !in "@" + u
  {
    assert forall i | 0 <= i < |"@" + u| :: ("@" + u)[i] == '@' || ("@" + u)[i] in u;
  }

  /** For a video URL of the site the username is the handle WITH its "@"
      and the id is the last path segment. */
  lemma LabelOfVideoUrl(u: string, id: string)
    requires '/' !in u && '/' !in id
    ensures LabelOf(site + "/@" + u + "/video/" + id) == VideoLabel("@" + u, id)
  {
    var rest := ("@" + u) + ['/'] + ("video" + ['/'] + id);
    assert site + "/@" + u + "/video/" + id == site + "/" + rest;
    SplitSiteUrl(rest);
    NoSlashInHandle(u);
    SplitAfterField("@" + u, "video" + ['/'] + id, '/');
    SplitAfterField("video", id, '/');
    SplitNoSeparator(id, '/');
  }

  /** A profile URL without a video part still yields the username, and
      the id stays "unknown". */
  lemma LabelOfProfileUrl(u: string)
    requires '/' !in u
    ensures LabelOf(site + "/@" + u) == VideoLabel("@" + u, "unknown")
  {
    assert site + "/@" + u == site + "/" + ("@" + u);
    SplitSiteUrl("@" + u);
    NoSlashInHandle(u);
    SplitNoSeparator("@" + u, '/');
  }

  /** A relative link as the page gives it, once fixed, is labelled with
      its handle and id. */
  lemma LabelOfFixedLink(u: string, id: string)
    requires '/' !in u && '/' !in id
    ensures LabelOf(FixLink("/@" + u + "/video/" + id)) == VideoLabel("@" + u, id)
  {
    DiffersAt("/@" + u + "/video/" + id, "http", 0);
    assert site + ("/@" + u + "/video/" + id) == site + "/@" + u + "/video/" + id;
    LabelOfVideoUrl(u, id);
  }
}

=== FILE: scanner.dfy ===
/** The navigation, challenge gate and scroll/collect loop of
    `TikTokScanner.scan` as a state machine. The browser is a finite list
    of observations, one per thing the program reads from it; `Step`
    consumes one observation and `Run` a list of them. An observation that
    the program does not read in the current phase leaves the state as it
    is. */
module Scanner {
  import opened Text
  import opened Challenge

  /** What `get_attribute("href")` gives for one anchor: no attribute,
      a string, or an exception. */
  datatype Href = Absent | Value(s: string) | Unreadable

  datatype Observation =
    | Arrived(page: Page)
      // the page after `goto` and the network-idle wait: login test and entry check
    | Links(postItems: seq<Href>, anchors: seq<Href>)
      // hrefs of the post-item anchors and of all anchors; then the scroll
    | Height(h: int)
      // one reading of `document.body.scrollHeight`
    | Recheck(page: Page)
      // the page as the scroll-time challenge check sees it
    | Ack
      // the human pressed Enter after solving a challenge
    | Raised
      // any call into the browser (or `input()`) raised

  datatype Phase =
    | Navigating     // waiting for the page after navigation
    | ChallengeWait  // a challenge was seen; waiting for the acknowledgement
    | Baseline       // the next height reading becomes `lastHeight` as is
    | Scanning       // top of the loop: waiting for the links
    | Measuring      // links taken and page scrolled: waiting for the new height
    | Stagnant       // the height did not change: waiting for the challenge re-check
    | Confirming     // no challenge: waiting for the confirmation reading
    | Done           // the loop ended normally
    | Failed         // an exception ended the scan

  datatype State = State(phase: Phase, lastHeight: int, links: set<string>, loginWarned: bool)

  /** The state the scan starts in, right before `goto`. */
  function Init(): State {
    State(Navigating, 0, {}, false)
  }

  predicate Terminal(s: State) {
    s.phase == Done || s.phase == Failed
  }

  /** What `scan` returns: the links gathered, whether it ended normally
      or by an exception (`list` of a set, so without duplicates). */
  function ScanResult(s: State): set<string> {
    s.links
  }

  predicate IsVideoLink(href: string) {
    Contains(href, "/video/")
  }

  /** The post-item anchors, or every anchor when there are none. */
  function Batch(postItems: seq<Href>, anchors: seq<Href>): seq<Href> {
    if |postItems| == 0 then anchors else postItems
  }

  /** Position of the first href that raises, or the length of the list. */
  function FirstUnreadable(hrefs: seq<Href>): (n: nat)
    ensures n <= |hrefs|
    ensures forall i | 0 <= i < n :: hrefs[i] != Unreadable
    ensures n < |hrefs| ==> hrefs[n] == Unreadable
  {
    if |hrefs| == 0 || hrefs[0] == Unreadable then 0 else 1 + FirstUnreadable(hrefs[1..])
  }

  /** `x` is a video href among the first `n` hrefs. */
  predicate OfferedBefore(hrefs: seq<Href>, n: int, x: string) {
    exists i | 0 <= i < n && i < |hrefs| :: hrefs[i] == Value(x) && IsVideoLink(x)
  }

  /** The links after a batch has been read, and whether every href could
      be read (otherwise the exception ends the scan). */
  datatype Harvest = Harvest(links: set<string>, complete: bool)

  /** The `for link in links` loop: every href containing "/video/" is
      added until one `get_attribute` raises. */
  function Collect(links: set<string>, hrefs: seq<Href>): (r: Harvest)
    ensures r.complete <==> FirstUnreadable(hrefs) == |hrefs|
    ensures forall x :: x in r.links <==>
      x in links || OfferedBefore(hrefs, FirstUnreadable(hrefs), x)
    decreases |hrefs|
  {
    if |hrefs| == 0 then Harvest(links, true)
    else
      match hrefs[0]
      case Unreadable => Harvest(links, false)
      case Absent =>
        var r := Collect(links, hrefs[1..]);
        ShiftOffered(hrefs, r.links, links, {});
        r
      case Value(v) =>
        var added := if IsVideoLink(v) then links + {v} else links;
        var r := Collect(added, hrefs[1..]);
        ShiftOffered(hrefs, r.links, links, if IsVideoLink(v) then {v} else {});
        r
  }

  /** A video href before the first unreadable one is either the head or
      one of the tail's. */
  lemma OfferedShift(hrefs: seq<Href>, x: string)
    requires |hrefs| > 0 && hrefs[0] != Unreadable
    ensures OfferedBefore(hrefs, FirstUnreadable(hrefs), x) <==>
      (hrefs[0] == Value(x) && IsVideoLink(x)) || OfferedBefore(hrefs[1..], FirstUnreadable(hrefs[1..]), x)
  {
    var n := FirstUnreadable(hrefs);
    assert n == 1 + FirstUnreadable(hrefs[1..]);
    if OfferedBefore(hrefs, n, x) && !(hrefs[0] == Value(x) && IsVideoLink(x)) {
      var i :| 0 <= i < n && i < |hrefs| && hrefs[i] == Value(x) && IsVideoLink(x);
      assert hrefs[1..][i - 1] == hrefs[i];
    }
    if OfferedBefore(hrefs[1..], n - 1, x) {
      var i :| 0 <= i < n - 1 && i < |hrefs[1..]| && hrefs[1..][i] == Value(x) && IsVideoLink(x);
      assert hrefs[i + 1] == Value(x);
    }
  }

  /** Moves the membership statement of `Collect` from the tail of the
      list to the whole list. */
  lemma ShiftOffered(hrefs: seq<Href>, result: set<string>, links: set<string>, head: set<string>)
    requires |hrefs| > 0 && hrefs[0] != Unreadable
    requires forall x :: x in head <==> hrefs[0] == Value(x) && IsVideoLink(x)
    requires forall x :: x in result <==>
      x in links + head || OfferedBefore(hrefs[1..], FirstUnreadable(hrefs[1..]), x)
    ensures forall x :: x in result <==>
      x in links || OfferedBefore(hrefs, FirstUnreadable(hrefs), x)
  {
    forall x
      ensures x in result <==> x in links || OfferedBefore(hrefs, FirstUnreadable(hrefs), x)
    {
      OfferedShift(hrefs, x);
    }
  }

  /** One observation. The scan state changes only as the program does:
      an ended scan stays as it is, an exception fails the scan and keeps
      its links, links change only when a batch is read at the top of the
      loop, `lastHeight` only takes a height reading that sends the loop
      back to the top, and only the arrival on a login URL sets the
      warning. */
  function Step(s: State, o: Observation): (t: State)
    ensures Terminal(s) ==> t == s
    ensures !Terminal(s) && o == Raised ==> t == s.(phase := Failed)
    ensures t.links != s.links ==> s.phase == Scanning && o.Links? && s.links <= t.links
    ensures t.lastHeight != s.lastHeight ==> o.Height? && t.lastHeight == o.h && t.phase == Scanning
    ensures t.loginWarned != s.loginWarned ==>
      s.phase == Navigating && o.Arrived? && Contains(o.page.url, "login") && t.loginWarned
    ensures s.phase == Navigating && o.Arrived? ==>
      t.phase == (match EntryCheck(o.page)
                  case QueryRaised => Failed
                  case Detected(_) => ChallengeWait
                  case Clear => Baseline)
    ensures s.phase == ChallengeWait && o == Ack ==> t == s.(phase := Baseline)
    ensures s.phase == Scanning && o.Links? ==>
      var b := Batch(o.postItems, o.anchors);
      && (forall x :: x in t.links <==> x in s.links || OfferedBefore(b, FirstUnreadable(b), x))
      && (t.phase == Measuring <==> FirstUnreadable(b) == |b|)
      && (t.phase == Failed <==> FirstUnreadable(b) < |b|)
    ensures s.phase == Baseline && o.Height? ==> t == s.(phase := Scanning, lastHeight := o.h)
    ensures s.phase == Measuring && o.Height? ==>
      t == if o.h == s.lastHeight then s.(phase := Stagnant) else s.(phase := Scanning, lastHeight := o.h)
    ensures s.phase == Stagnant && o.Recheck? ==>
      t.phase == (match ScrollCheck(o.page)
                  case QueryRaised => Failed
                  case Detected(_) => ChallengeWait
                  case Clear => Confirming)
  {
    if Terminal(s) then s
    else match o
      case Raised => s.(phase := Failed)
      case Arrived(p) =>
        if s.phase != Navigating then s
        else
          var warned := s.(loginWarned := s.loginWarned || Contains(p.url, "login"));
          (match EntryCheck(p)
           case QueryRaised => warned.(phase := Failed)
           case Detected(_) => warned.(phase := ChallengeWait)
           case Clear => warned.(phase := Baseline))
      case Ack =>
        if s.phase == ChallengeWait then s.(phase := Baseline) else s
      case Links(postItems, anchors) =>
        if s.phase != Scanning then s
        else
          var harvest := Collect(s.links, Batch(postItems, anchors));
          s.(links := harvest.links, phase := if harvest.complete then Measuring else Failed)
      case Height(h) =>
        (match s.phase
         case Baseline => s.(phase := Scanning, lastHeight := h)
         case Measuring =>
           if h == s.lastHeight then s.(phase := Stagnant) else s.(phase := Scanning, lastHeight := h)
         case Confirming =>
           if h == s.lastHeight then s.(phase := Done) else s.(phase := Scanning, lastHeight := h)
         case _ => s)
      case Recheck(p) =>
        if s.phase != Stagnant then s
        else
          match ScrollCheck(p)
          case QueryRaised => s.(phase := Failed)
          case Detected(_) => s.(phase := ChallengeWait)
          case Clear => s.(phase := Confirming)
  }

  /** A finite run of the scan: links are never lost, and a scan that
      has ended stays as it is. */
  function Run(s: State, obs: seq<Observation>): (r: State)
    ensures s.links <= r.links
    ensures Terminal(s) ==> r == s
    decreases |obs|
  {
    if |obs| == 0 then s else Run(Step(s, obs[0]), obs[1..])
  }

  predicate AllVideoLinks(links: set<string>) {
    forall x | x in links :: IsVideoLink(x)
  }

  /** `x` is a video href that the program reads from `o`: in the batch
      it queries (the post items, or the anchors when there are none),
      before the first href that raises. */
  predicate Offers(o: Observation, x: string) {
    o.Links? && OfferedBefore(Batch(o.postItems, o.anchors), FirstUnreadable(Batch(o.postItems, o.anchors)), x)
  }

  // ---------------------------------------------------------------------
  // One step

  /** A step never loses a link, and adds only video hrefs of the batch it
      reads. */
  lemma StepLinks(s: State, o: Observation)
    ensures s.links <= Step(s, o).links
    ensures forall x | x in Step(s, o).links && x !in s.links :: IsVideoLink(x) && Offers(o, x)
  {
    if !Terminal(s) && s.phase == Scanning && o.Links? {
      var b := Batch(o.postItems, o.anchors);
      forall x | x in Step(s, o).links && x !in s.links
        ensures IsVideoLink(x) && Offers(o, x)
      {
        assert OfferedBefore(b, FirstUnreadable(b), x);
      }
    }
  }

  /** Only reading a batch of links in the `Scanning` phase changes the
      links. */
  lemma LinksChangeOnlyWhenScanning(s: State, o: Observation)
    requires Step(s, o).links != s.links
    ensures s.phase == Scanning && o.Links?
  {
  }

  /** The generic anchors are read only when the post-item query finds
      nothing: with post items present, the anchors cannot change the
      step, not even an anchor whose href would raise. */
  lemma AnchorsIgnored(s: State, postItems: seq<Href>, anchors: seq<Href>)
    requires |postItems| > 0
    ensures Step(s, Links(postItems, anchors)) == Step(s, Links(postItems, []))
  {
  }

  /** An exception ends the scan and keeps exactly the links gathered so
      far. */
  lemma RaisedKeepsLinks(s: State)
    requires !Terminal(s)
    ensures Step(s, Raised).phase == Failed
    ensures ScanResult(Step(s, Raised)) == ScanResult(s)
  {
  }

  /** A login redirect only sets the warning: the entry observation fails
      the scan only when a main-frame query raises. */
  lemma LoginOnlyWarns(s: State, p: Page)
    requires s.phase == Navigating && Contains(p.url, "login")
    ensures Step(s, Arrived(p)).loginWarned
    ensures Step(s, Arrived(p)).phase == Failed <==> EntryCheck(p) == QueryRaised
  {
  }

  /** The height is compared with `lastHeight` only in `Measuring`, which
      is entered only by reading a complete batch of links: every iteration
      extracts before it scrolls and measures. */
  lemma ExtractionPrecedesMeasurement(s: State, o: Observation)
    requires Step(s, o).phase == Measuring && s.phase != Measuring
    ensures s.phase == Scanning && o.Links?
    ensures var b := Batch(o.postItems, o.anchors); FirstUnreadable(b) == |b|
  {
  }

  /** The loop ends normally only when the confirmation reading equals
      `lastHeight`. */
  lemma DoneOnlyByConfirmation(s: State, o: Observation)
    requires Step(s, o).phase == Done && s.phase != Done
    ensures s.phase == Confirming && o == Height(s.lastHeight)
  {
  }

  /** The confirmation takes exactly one reading: afterwards the loop has
      either ended or is back at the top with that reading as
      `lastHeight`. */
  lemma ConfirmationIsOneReading(s: State, h: int)
    requires s.phase == Confirming
    ensures var t := Step(s, Height(h));
      (t.phase == Done && h == s.lastHeight) ||
      (t.phase == Scanning && t.lastHeight == h && h != s.lastHeight)
  {
  }

  // ---------------------------------------------------------------------
  // Runs

  lemma {:induction false} RunAppend(s: State, a: seq<Observation>, b: seq<Observation>)
    ensures Run(s, a + b) == Run(Run(s, a), b)
    decreases |a|
  {
    if |a| > 0 {
      assert (a + b)[1..] == a[1..] + b;
      RunAppend(Step(s, a[0]), a[1..], b);
    } else {
      assert a + b == b;
    }
  }

  /** Once the scan has ended, nothing changes it. */
  lemma {:induction false} TerminalIsFinal(s: State, obs: seq<Observation>)
    requires Terminal(s)
    ensures Run(s, obs) == s
    decreases |obs|
  {
    if |obs| > 0 {
      TerminalIsFinal(Step(s, obs[0]), obs[1..]);
    }
  }

  /** Over any finite run the links only grow, every link is a video
      href, and every new link was offered by one of the batches read. */
  lemma {:induction false} RunLinks(s: State, obs: seq<Observation>)
    requires AllVideoLinks(s.links)
    ensures s.links <= Run(s, obs).links
    ensures AllVideoLinks(Run(s, obs).links)
    ensures forall x | x in Run(s, obs).links && x !in s.links ::
      exists i | 0 <= i < |obs| :: Offers(obs[i], x)
    decreases |obs|
  {
    if |obs| > 0 {
      var t := Step(s, obs[0]);
      StepLinks(s, obs[0]);
      RunLinks(t, obs[1..]);
      forall x | x in Run(s, obs).links && x !in s.links
        ensures exists i | 0 <= i < |obs| :: Offers(obs[i], x)
      {
        if x in t.links {
          assert Offers(obs[0], x);
        } else {
          var i :| 0 <= i < |obs[1..]| && Offers(obs[1..][i], x);
          assert Offers(obs[i + 1], x);
        }
      }
    }
  }

  /** Whatever happens, a scan from the start returns only video hrefs
      that the page offered. */
  lemma ScanReturnsOfferedVideoLinks(obs: seq<Observation>)
    ensures AllVideoLinks(ScanResult(Run(Init(), obs)))
    ensures forall x | x in ScanResult(Run(Init(), obs)) :: exists i | 0 <= i < |obs| :: Offers(obs[i], x)
  {
    RunLinks(Init(), obs);
  }

  /** An exception after any run ends the scan with the links of that
      run. */
  lemma RaisedAfterRun(s: State, obs: seq<Observation>)
    ensures Terminal(Run(s, obs + [Raised]))
    ensures ScanResult(Run(s, obs + [Raised])) == ScanResult(Run(s, obs))
  {
    RunAppend(s, obs, [Raised]);
  }

  /** Running a list that starts with `o` is running the rest from the
      step on `o`. */
  lemma RunCons(s: State, o: Observation, rest: seq<Observation>)
    ensures Run(s, [o] + rest) == Run(Step(s, o), rest)
  {
    assert ([o] + rest)[1..] == rest;
  }

  /** Two readings equal to `lastHeight` with no challenge in between end
      the loop. */
  lemma StagnationEndsLoop(s: State, p: Page)
    requires s.phase == Measuring && ScrollCheck(p) == Clear
    ensures Run(s, [Height(s.lastHeight), Recheck(p), Height(s.lastHeight)]) == s.(phase := Done)
  {
    var h := s.lastHeight;
    RunCons(s, Height(h), [Recheck(p), Height(h)]);
    RunCons(s.(phase := Stagnant), Recheck(p), [Height(h)]);
    RunCons(s.(phase := Confirming), Height(h), []);
    assert [Height(h)] + [Recheck(p), Height(h)] == [Height(h), Recheck(p), Height(h)];
    assert [Recheck(p)] + [Height(h)] == [Recheck(p), Height(h)];
    assert [Height(h)] + [] == [Height(h)];
  }

  /** A confirmation reading that differs resumes scanning from it. */
  lemma LateGrowthResumes(s: State, p: Page, h: int)
    requires s.phase == Measuring && ScrollCheck(p) == Clear && h != s.lastHeight
    ensures Run(s, [Height(s.lastHeight), Recheck(p), Height(h)]) == s.(phase := Scanning, lastHeight := h)
  {
    var l := s.lastHeight;
    RunCons(s, Height(l), [Recheck(p), Height(h)]);
    RunCons(s.(phase := Stagnant), Recheck(p), [Height(h)]);
    RunCons(s.(phase := Confirming), Height(h), []);
    assert [Height(l)] + [Recheck(p), Height(h)] == [Height(l), Recheck(p), Height(h)];
    assert [Recheck(p)] + [Height(h)] == [Recheck(p), Height(h)];
    assert [Height(h)] + [] == [Height(h)];
  }

  /** A challenge seen after a stagnant reading never ends the loop: after
      the acknowledgement the height is read again and becomes
      `lastHeight`, even when it has not changed. */
  lemma ChallengeAfterStagnationResumes(s: State, p: Page, h: int)
    requires s.phase == Measuring && ScrollCheck(p).Detected?
    ensures var obs := [Height(s.lastHeight), Recheck(p), Ack, Height(h)];
      && (forall k | 0 <= k <= |obs| :: Run(s, obs[..k]).phase != Done)
      && Run(s, obs) == s.(phase := Scanning, lastHeight := h)
  {
    var obs := [Height(s.lastHeight), Recheck(p), Ack, Height(h)];
    var states := [
      s,
      s.(phase := Stagnant),
      s.(phase := ChallengeWait),
      s.(phase := Baseline),
      s.(phase := Scanning, lastHeight := h)];
    forall k | 0 <= k < 4
      ensures Step(states[k], obs[k]) == states[k + 1]
    {
    }
    RunFollows(states, obs);
    assert obs[..4] == obs;
  }

  // ---------------------------------------------------------------------
  // Heights 100, 250, 250 and a confirming 250 with no challenge

  const exampleUrl := "https://www.tiktok.com/@bob"
  const examplePage := Page(exampleUrl, Miss, Miss, Miss, [])
  const video1 := "/@bob/video/1"
  const video2 := "/@bob/video/2"
  const firstBatch := [Value(video1), Absent]
  const secondBatch := [Value(video1), Value(video2), Value("/@bob")]

  lemma ExampleUrlUnmarked()
    ensures !Contains(exampleUrl, "login") && !UrlMarked(exampleUrl)
  {
    assert 'v' !in exampleUrl;
    MissingCharNotContained(exampleUrl, "verify", 0);
    assert 'a' !in exampleUrl;
    MissingCharNotContained(exampleUrl, "captcha", 1);
    assert 'g' !in exampleUrl;
    MissingCharNotContained(exampleUrl, "login", 2);
  }

  lemma ExamplePageIsClean()
    ensures EntryCheck(examplePage) == Clear && ScrollCheck(examplePage) == Clear
  {
    ExampleUrlUnmarked();
  }

  lemma ExampleBatches()
    ensures Collect({}, firstBatch) == Harvest({video1}, true)
    ensures Collect({video1}, secondBatch) == Harvest({video1, video2}, true)
  {
    assert InfixAt(video1, "/video/", 5);
    assert InfixAt(video2, "/video/", 5);
    MissingCharNotContained("/@bob", "/video/", 1);
    assert secondBatch[1] == Value(video2);
    assert OfferedBefore(secondBatch, 3, video2);
  }

  /** The first reading is the baseline, so the loop reads links twice,
      sees 250 twice in a row and stops with the links of both passes. */
  lemma StagnationExample()
    ensures
      var obs := [Arrived(examplePage), Height(100), Links(firstBatch, []), Height(250),
                  Links(secondBatch, []), Height(250), Recheck(examplePage), Height(250)];
      var t := Run(Init(), obs);
      t.phase == Done && t.lastHeight == 250 && !t.loginWarned &&
      ScanResult(t) == {video1, video2}
  {
    ExampleUrlUnmarked();
    ExamplePageIsClean();
    ExampleBatches();
    var obs := [Arrived(examplePage), Height(100), Links(firstBatch, []), Height(250),
                Links(secondBatch, []), Height(250), Recheck(examplePage), Height(250)];
    var states := [
      Init(),
      State(Baseline, 0, {}, false),
      State(Scanning, 100, {}, false),
      State(Measuring, 100, {video1}, false),
      State(Scanning, 250, {video1}, false),
      State(Measuring, 250, {video1, video2}, false),
      State(Stagnant, 250, {video1, video2}, false),
      State(Confirming, 250, {video1, video2}, false),
      State(Done, 250, {video1, video2}, false)];
    forall k | 0 <= k < 8
      ensures Step(states[k], obs[k]) == states[k + 1]
    {
    }
    RunFollows(states, obs);
    assert obs[..8] == obs;
  }

  /** A run that visits the listed states one step at a time is, after
      each prefix, in the matching state. */
  lemma {:induction false} RunFollows(states: seq<State>, obs: seq<Observation>)
    requires |states| == |obs| + 1
    requires forall k | 0 <= k < |obs| :: Step(states[k], obs[k]) == states[k + 1]
    ensures forall k | 0 <= k <= |obs| :: Run(states[0], obs[..k]) == states[k]
    decreases |obs|
  {
    if |obs| > 0 {
      RunFollows(states[1..], obs[1..]);
      forall k | 0 < k <= |obs|
        ensures Run(states[0], obs[..k]) == states[k]
      {
        assert obs[..k][1..] == obs[1..][..k - 1];
      }
    }
  }
}

=== FILE: text.dfy ===
/** An optional value: `None` stands for a step of the program that gave
    nothing back (a parse that raised, a pattern that did not match). */
module Options {

  datatype Option<+T> = None | Some(value: T) {

    /** The encapsulated value, or `default` when there is none. */
    function GetOr(default: T): (r: T)
      ensures Some? ==> r == value
      ensures None? ==> r == default
    {
      match this
      case Some(v) => v
      case None => default
    }
  }
}

/** The handful of Python `str` operations the program relies on, stated
    over `seq<char>` (a `char` is a Unicode scalar value, as a Python code
    point is). */
module Text {

  /** Python's `str.isspace()`: the characters `strip()` removes. */
  predicate IsSpace(c: char) {
    || c == ' '
    || '\t' <= c <= '\r'
    || '\U{1C}' <= c <= '\U{1F}'
    || c == '\U{85}' || c == '\U{A0}' || c == '\U{1680}'
    || '\U{2000}' <= c <= '\U{200A}'
    || c == '\U{2028}' || c == '\U{2029}' || c == '\U{202F}'
    || c == '\U{205F}' || c == '\U{3000}'
  }

  /** `s.startswith(p)` */
  predicate StartsWith(s: string, p: string) {
    |p| <= |s| && s[..|p|] == p
  }

  /** A string that differs from `p` at some position of `p` (or is too
      short to reach it) does not start with `p`. */
  lemma DiffersAt(s: string, p: string, k: int)
    requires 0 <= k < |p| && (k < |s| ==> s[k] != p[k])
    ensures !StartsWith(s, p)
  {
    if |p| <= |s| {
      assert s[..|p|][k] == s[k];
    }
  }

  /** `sub` occurs in `s` at offset `i`. */
  predicate InfixAt(s: string, sub: string, i: int) {
    0 <= i && i + |sub| <= |s| && s[i..i + |sub|] == sub
  }

  /** `sub in s` */
  predicate Contains(s: string, sub: string) {
    exists i | 0 <= i <= |s| - |sub| :: InfixAt(s, sub, i)
  }

  /** An occurrence survives putting text in front of the string. */
  lemma ContainsAfterPrefix(p: string, s: string, sub: string)
    requires Contains(s, sub)
    ensures Contains(p + s, sub)
  {
    var i :| 0 <= i <= |s| - |sub| && InfixAt(s, sub, i);
    assert (p + s)[|p| + i..|p| + i + |sub|] == s[i..i + |sub|];
    assert InfixAt(p + s, sub, |p| + i);
  }

  /** A string lacking one of the characters of `sub` does not contain it. */
  lemma MissingCharNotContained(s: string, sub: string, k: int)
    requires 0 <= k < |sub| && sub[k] !in s
    ensures !Contains(s, sub)
  {
    forall i | 0 <= i <= |s| - |sub|
      ensures !InfixAt(s, sub, i)
    {
      assert s[i..i + |sub|][k] == s[i + k];
    }
  }

  /** Python's `lstrip()`: drop the longest all-whitespace prefix. */
  function TrimStart(s: string): (r: string)
    ensures |r| <= |s| && r == s[|s| - |r|..]
    ensures r == [] || !IsSpace(r[0])
    ensures forall i :: 0 <= i < |s| - |r| ==> IsSpace(s[i])
  {
    if |s| > 0 && IsSpace(s[0]) then TrimStart(s[1..]) else s
  }

  /** Python's `rstrip()`: drop the longest all-whitespace suffix. */
  function TrimEnd(s: string): (r: string)
    ensures |r| <= |s| && r == s[..|r|]
    ensures r == [] || !IsSpace(r[|r| - 1])
    ensures forall i :: |r| <= i < |s| ==> IsSpace(s[i])
  {
    if |s| > 0 && IsSpace(s[|s| - 1]) then TrimEnd(s[..|s| - 1]) else s
  }

  /** Python's `strip()`. */
  function Strip(s: string): (r: string)
    ensures r == [] || (!IsSpace(r[0]) && !IsSpace(r[|r| - 1]))
  {
    TrimEnd(TrimStart(s))
  }

  /** Number of occurrences of `c` in `s`. */
  function Count(s: string, c: char): nat {
    if |s| == 0 then 0 else (if s[0] == c then 1 else 0) + Count(s[1..], c)
  }

  lemma {:induction false} CountAppend(a: string, b: string, c: char)
    ensures Count(a + b, c) == Count(a, c) + Count(b, c)
    decreases |a|
  {
    if |a| == 0 {
      assert a + b == b;
    } else {
      assert (a + b)[1..] == a[1..] + b;
      CountAppend(a[1..], b, c);
    }
  }

  /** A piece of a string has no more occurrences than the string. */
  lemma CountInfix(s: string, a: int, b: int, c: char)
    requires 0 <= a <= b <= |s|
    ensures Count(s[a..b], c) <= Count(s, c)
  {
    assert s == s[..a] + s[a..b] + s[b..];
    CountAppend(s[..a] + s[a..b], s[b..], c);
    CountAppend(s[..a], s[a..b], c);
  }

  /** Python's `s.split(sep)` with an explicit one-character separator:
      never empty, and empty fields are kept. */
  function Split(s: string, sep: char): (parts: seq<string>)
    ensures |parts| >= 1
    decreases |s|
  {
    if |s| == 0 then [""]
    else
      var rest := Split(s[1..], sep);
      if s[0] == sep then [""] + rest
      else [[s[0]] + rest[0]] + rest[1..]
  }

  /** Python's `sep.join(parts)` for a non-empty list. */
  function Join(parts: seq<string>, sep: char): string
    requires |parts| >= 1
  {
    if |parts| == 1 then parts[0] else parts[0] + [sep] + Join(parts[1..], sep)
  }

  /** Splitting yields one more field than there are separators. */
  lemma {:induction false} SplitLength(s: string, sep: char)
    ensures |Split(s, sep)| == Count(s, sep) + 1
    decreases |s|
  {
    if |s| > 0 {
      SplitLength(s[1..], sep);
    }
  }

  /** No field produced by `Split` contains the separator. */
  lemma {:induction false} SplitFieldsFree(s: string, sep: char)
    ensures forall k :: 0 <= k < |Split(s, sep)| ==> sep !in Split(s, sep)[k]
    decreases |s|
  {
    if |s| > 0 {
      SplitFieldsFree(s[1..], sep);
    }
  }

  /** Joining the fields back together restores the string. */
  lemma {:induction false} JoinSplit(s: string, sep: char)
    ensures Join(Split(s, sep), sep) == s
    decreases |s|
  {
    if |s| > 0 {
      var rest := Split(s[1..], sep);
      JoinSplit(s[1..], sep);
      if s[0] == sep {
        assert Join(Split(s, sep), sep) == [] + [sep] + Join(rest, sep);
      } else if |rest| == 1 {
        assert Join(Split(s, sep), sep) == [s[0]] + rest[0];
      } else {
        assert Join(Split(s, sep), sep) == [s[0]] + rest[0] + [sep] + Join(rest[1..], sep);
      }
    }
  }

  /** A separator-free prefix followed by a separator is the first field. */
  lemma {:induction false} SplitAfterField(a: string, b: string, sep: char)
    requires sep !in a
    ensures Split(a + [sep] + b, sep) == [a] + Split(b, sep)
    decreases |a|
  {
    if |a| > 0 {
      assert (a + [sep] + b)[1..] == a[1..] + [sep] + b;
      SplitAfterField(a[1..], b, sep);
      assert [a[0]] + a[1..] == a;
    } else {
      assert a + [sep] + b == [sep] + b;
    }
  }

  /** A separator-free string is a single field. */
  lemma {:induction false} SplitNoSeparator(a: string, sep: char)
    requires sep !in a
    ensures Split(a, sep) == [a]
    decreases |a|
  {
    if |a| > 0 {
      SplitNoSeparator(a[1..], sep);
      assert [a[0]] + a[1..] == a;
    }
  }

  /** Splitting a join of separator-free fields gives the fields back. */
  lemma {:induction false} SplitJoin(parts: seq<string>, sep: char)
    requires |parts| >= 1
    requires forall k :: 0 <= k < |parts| ==> sep !in parts[k]
    ensures Split(Join(parts, sep), sep) == parts
    decreases |parts|
  {
    if |parts| == 1 {
      SplitNoSeparator(parts[0], sep);
    } else {
      SplitJoin(parts[1..], sep);
      SplitAfterField(parts[0], Join(parts[1..], sep), sep);
      assert [parts[0]] + parts[1..] == parts;
    }
  }

  /** A string that does not start with the separator has a non-empty
      first field. */
  lemma SplitFirstNonEmpty(s: string, sep: char)
    requires |s| > 0 && s[0] != sep
    ensures Split(s, sep)[0] != ""
  {
  }

  /** A string that does not end with the separator has a non-empty last
      field. */
  lemma {:induction false} SplitLastNonEmpty(s: string, sep: char)
    requires |s| > 0 && s[|s| - 1] != sep
    ensures Split(s, sep)[|Split(s, sep)| - 1] != ""
    decreases |s|
  {
    if |s| > 1 {
      assert s[1..][|s[1..]| - 1] == s[|s| - 1];
      SplitLastNonEmpty(s[1..], sep);
    }
  }

  /** Python's `upper()` on the ASCII letters; every other character is
      kept as it is. */
  function UpperChar(c: char): char {
    if 'a' <= c <= 'z' then (c as int - 32) as char else c
  }

  function Upper(s: string): (r: string)
    ensures |r| == |s|
    ensures forall i :: 0 <= i < |s| ==> r[i] == UpperChar(s[i])
  {
    seq(|s|, i requires 0 <= i < |s| => UpperChar(s[i]))
  }
}

=== FILE: video_log.dfy ===
/** The bookkeeping of `VideoLogger` in the download phase: the title
    shortened for display and the success / error counters, with the
    download loop of `download_videos` driving them. The download itself
    is a parameter: `completes(url)` tells whether the `try` body for that
    URL (metadata, display, download) returned without an exception. */
module VideoLog {
  import opened Options
  import opened Text

  /** Titles are shown with at most this many characters. */
  const titleWidth := 50

  /** `title[:50]` followed by "..." when the title is longer. */
  function DisplayTitle(title: string): (shown: string)
    ensures |title| <= titleWidth ==> shown == title
    ensures |title| > titleWidth ==>
      |shown| == titleWidth + 3 && StartsWith(shown, title[..titleWidth]) && shown[titleWidth..] == "..."
  {
    title[..if |title| > titleWidth then titleWidth else |title|] + (if |title| > titleWidth then "..." else "")
  }

  /** A shown title is never longer than 53 characters, always starts
      with as much of the title as fits, and showing it again changes
      nothing. */
  lemma DisplayTitleStable(title: string)
    ensures |DisplayTitle(title)| <= titleWidth + 3
    ensures StartsWith(DisplayTitle(title), title[..if |title| < titleWidth then |title| else titleWidth])
    ensures DisplayTitle(DisplayTitle(title)) == DisplayTitle(title)
  {
    var shown := DisplayTitle(title);
    if |title| > titleWidth {
      assert shown[..titleWidth] == title[..titleWidth];
      assert DisplayTitle(shown) == shown[..titleWidth] + "...";
      assert shown == shown[..titleWidth] + shown[titleWidth..];
    }
  }

  datatype VideoLogger = VideoLogger(
    total: nat,
    currentIndex: int,
    successCount: nat,
    errorCount: nat,
    blockStarted: bool)

  function NewLogger(total: nat): (l: VideoLogger)
    ensures l.total == total && l.successCount == 0 && l.errorCount == 0
  {
    VideoLogger(total, 0, 0, 0, false)
  }

  /** `start_video`: records the 1-based index of the video shown. */
  function StartVideo(l: VideoLogger, index: int): (r: VideoLogger)
    ensures r.currentIndex == index && r.blockStarted
    ensures r.total == l.total && r.successCount == l.successCount && r.errorCount == l.errorCount
  {
    l.(currentIndex := index, blockStarted := true)
  }

  /** `finish_video`: the status "success" counts as a success, every
      other status as an error; exactly one counter moves. */
  function FinishVideo(l: VideoLogger, status: string): (r: VideoLogger)
    ensures r.successCount + r.errorCount == l.successCount + l.errorCount + 1
    ensures r.successCount > l.successCount <==> status == "success"
    ensures r.successCount >= l.successCount && r.errorCount >= l.errorCount
    ensures r.total == l.total && r.currentIndex == l.currentIndex && r.blockStarted == l.blockStarted
  {
    if status == "success" then l.(successCount := l.successCount + 1)
    else l.(errorCount := l.errorCount + 1)
  }

  /** Number of URLs whose `try` body returns without an exception. */
  function Successes(urls: seq<string>, completes: string -> bool): (n: nat)
    ensures n <= |urls|
  {
    if |urls| == 0 then 0
    else Successes(urls[..|urls| - 1], completes) + (if completes(urls[|urls| - 1]) then 1 else 0)
  }

  /** `download_videos` without the downloading: no logger at all for an
      empty list ("No videos to download."), otherwise every URL is
      started and finished exactly once, in order, and the counters add up
      to the number of URLs. */
  method DownloadVideos(urls: seq<string>, completes: string -> bool) returns (logger: Option<VideoLogger>)
    ensures logger.None? <==> urls == []
    ensures logger.Some? ==>
      && logger.value.total == |urls|
      && logger.value.currentIndex == |urls|
      && logger.value.successCount == Successes(urls, completes)
      && logger.value.errorCount == |urls| - Successes(urls, completes)
  {
    if |urls| == 0 {
      return None;
    }
    var l := NewLogger(|urls|);
    var index := 1;
    while index <= |urls|
      invariant 1 <= index <= |urls| + 1
      invariant l.total == |urls|
      invariant index > 1 ==> l.currentIndex == index - 1
      invariant l.successCount == Successes(urls[..index - 1], completes)
      invariant l.successCount + l.errorCount == index - 1
    {
      var url := urls[index - 1];
      l := StartVideo(l, index);
      if completes(url) {
        l := FinishVideo(l, "success");
      } else {
        l := FinishVideo(l, "error");
      }
      assert urls[..index][..index - 1] == urls[..index - 1];
      index := index + 1;
    }
    assert urls[..|urls|] == urls;
    return Some(l);
  }
}
